=== FILE: README.md ===
# piomux core in Dafny

piomux runs a child program and fans its standard output out to the
server's own standard output and to every client of a Unix socket. This
project models the two pieces that hold the logic:

- **`RingBuffers`** (`ring_buffer.dfy`). The fixed-capacity ring buffer with
  external cursors.
  - The buffer holds a backing store, a start cursor and a length.
  - The producer writes into the *unused slices* and commits them with
    `assume_init`.
  - Each reader asks for the *slices from* its own cursor and advances that
    cursor by what it consumed.
  - `remove` reclaims the oldest bytes.
  - Slices are modelled as index ranges into the store. The bytes in order
    are `Stream(b)`, and what a reader at `c` is offered is `Unsent(b, c)`.
- **`Servers`** (`server.dfy`), **`ServerTheory`** (`server_theory.dfy`) and
  **`ServerLoop`** (`poll_loop.dfy`). The server's bookkeeping:
  - one output buffer of capacity 4096;
  - a slab of connections (`Slabs`, `slab.dfy`), each holding a cursor;
  - `listen`, `poll_accept`, `poll_write`, `poll_read`, and the loop of
    `poll_inner`;
  - the invariant that every live cursor stays between the buffer's start and
    its end (`Servers.CursorsInWindow`), kept by every step.
  - Every I/O call becomes an input: the outcome it reported. Those inputs are
    the listener's accept result, each connection's vectored-write result, and
    what the child's standard output delivered into each region.

`Modular` (`modular.dfy`) holds the facts about `%` the proofs use.
`RingBufferExamples` (`ring_buffer_examples.dfy`) restates the ring buffer's
unit tests as lemmas, plus a remove-then-wrap scenario.

The model keeps the source's sharp edges as they are:

- A reader whose cursor sits at `end()` of a *full* buffer is offered the
  whole buffer again (`RingBuffers.FullCatchUpIsOfferedAgain`).
- A cursor outside the valid region gets nothing (`RingBuffers.SlicesFromEdges`).
- `poll_read` reads into the second region even after a short read into the
  first, and then commits the total. This appends the right bytes only when
  the first region was filled (`ServerTheory.PollReadAppends` takes it as a
  precondition). Otherwise an unwritten byte becomes valid
  (`ServerTheory.PartialFillCommitsUnwrittenByte`).
- A write that reports zero bytes passes the (debug-only) assertion and
  stalls the round (`ServerTheory.ZeroWriteStallsRound`).

## Model

| member | source | states |
|---|---|---|
| RingBuffers.Add | src/ring_buffer.rs:113-121 | advancing a cursor always lands inside the index space `[0, capacity)` |
| RingBuffers.AddComposes | src/ring_buffer.rs:113-127 | `+=` twice is `+` once by the sum: cursor arithmetic is addition modulo the capacity |
| RingBuffers.New | src/ring_buffer.rs:25-31 | a new buffer is valid and empty, starts at 0, ends where it starts and holds no bytes |
| RingBuffers.IsEmpty | src/ring_buffer.rs:33-35 | a valid buffer is empty exactly when its stream holds no byte |
| RingBuffers.IsFull | src/ring_buffer.rs:37-39 | a valid buffer is full exactly when its stream is as long as the capacity |
| RingBuffers.Len | src/ring_buffer.rs:41-43 | the length is the number of bytes in the stream and never exceeds the capacity |
| RingBuffers.Start | src/ring_buffer.rs:45-47 | `start()` lies in `[0, capacity)`, is logical position 0, and holds a valid byte whenever the buffer is not empty |
| RingBuffers.End | src/ring_buffer.rs:49-51 | `end()` lies in `[0, capacity)` |
| RingBuffers.FullExactlyWhenAllValid | src/ring_buffer.rs:33-39 | full exactly when every physical index holds a valid byte, and empty exactly when none does |
| RingBuffers.EndInWindow | src/ring_buffer.rs:49-51 | a reader at `end()` is in the window: at logical position `len`, or 0 when the buffer is full |
| RingBuffers.EndMeetsStart | src/ring_buffer.rs:33-51 | `end()` is `start() + len` modulo the capacity, and equals `start()` exactly when the buffer is empty or full |
| RingBuffers.UnusedSlices | src/ring_buffer.rs:53-68 | the unused slices lie in the store, begin at `end()`, hold capacity minus length places, are both empty when the buffer is full, the second (when used) starts at index 0, and their j-th place is the j-th free place after the valid bytes |
| RingBuffers.UnusedSlicesAreFreeSpace | src/ring_buffer.rs:53-68 | the two unused slices never overlap and cover a physical index exactly when it holds no valid byte |
| RingBuffers.SlicesFrom | src/ring_buffer.rs:70-95 | the slices from a cursor lie in the store, offer every byte from the cursor to the end when the cursor is on a valid byte and nothing otherwise, starting at the cursor, in logical order across the wrap, with the second slice (when used) starting at index 0 |
| RingBuffers.ReadSlicesFrom | src/ring_buffer.rs:70-95 | the bytes offered from a cursor are the stream from the cursor's logical position on, and only valid bytes are ever offered |
| RingBuffers.SlicesFromEdges | src/ring_buffer.rs:70-95 | from `start()` the whole stream is offered; an empty buffer or a stale cursor gets nothing; `end()` of a non-full buffer gets nothing and `end()` of a full one gets everything; a cursor in the window gets the rest of the stream |
| RingBuffers.UnsentInWindow | src/ring_buffer.rs:70-95 | a cursor between start and end (inclusive) is offered exactly the stream from its position on |
| RingBuffers.AssumeInit | src/ring_buffer.rs:97-99 | committing `n` bytes grows the length to `min(len + n, capacity)`, moves nothing and keeps the existing stream as a prefix |
| RingBuffers.Remove | src/ring_buffer.rs:101-105 | removing `n` drops exactly the oldest `min(n, len)` bytes: the start advances by that much, the end stays put, and the stream loses that prefix; removing at least `len` empties the buffer |
| RingBuffers.RemoveKeepsEnd | src/ring_buffer.rs:101-105 | advancing the start by `m <= len` and shortening the length by `m` leaves a valid buffer with the same `end()` |
| RingBuffers.RemoveShifts | src/ring_buffer.rs:101-105 | a buffer whose start moved on by `m <= len` ends at the same place and holds the old stream minus its first `m` bytes |
| RingBuffers.OffsetAfterRemove | src/ring_buffer.rs:101-105 | after removing `m` bytes a physical index's logical position drops by `m`, wrapping around for indices that were reclaimed |
| RingBuffers.FillKeepsStream | src/ring_buffer.rs:53-68 | writing into the unused slices never changes a valid byte |
| RingBuffers.FillAppendsAt | src/ring_buffer.rs:53-68 | when the second slice is used only after the first is full, the t-th place after the end receives the t-th written byte |
| RingBuffers.FillThenCommitAt | src/ring_buffer.rs:53-99 | once the slices are filled in order and committed, the t-th byte after the old end of the stream is the t-th byte written |
| RingBuffers.FillThenCommit | src/ring_buffer.rs:53-99 | filling the unused slices in order and committing the count appends exactly those bytes to the stream, provided the second slice is used only once the first is full |
| RingBuffers.ReadFromOldEnd | src/ring_buffer.rs:70-95 | after bytes are appended to a non-full buffer, a reader at the old end is offered exactly the appended bytes |
| RingBuffers.WriteCommitRead | src/ring_buffer.rs:53-99 | round trip: bytes written into the unused slices and committed extend the stream by those bytes, and a reader at the old end reads them back in order across the wrap |
| RingBuffers.OffsetAfterConsume | src/ring_buffer.rs:113-127 | a reader that consumes `k` offered bytes moves `k` logical places on, wrapping to 0 only after consuming to the end of a full buffer |
| RingBuffers.ConsumeThenRemove | src/ring_buffer.rs:70-127 | a reader that consumes `k` offered bytes, followed by removing `m <= k`, stays in the window and is offered exactly the bytes it had not consumed (except at the full-buffer edge) |
| RingBuffers.ConsumeThenRemoveInWindow | src/ring_buffer.rs:101-127 | a reader in the window that consumes at most what it is offered, followed by removing at most what it consumed, stays in the window, including at the full-buffer edge |
| RingBuffers.FullCatchUpIsOfferedAgain | src/ring_buffer.rs:70-95 | a reader that consumes everything from a full buffer lands on `end()` and is offered the whole buffer again |
| RingBufferExamples.UnusedWhenEmpty | src/ring_buffer.rs:140-148 | an empty buffer at 0 offers the whole store as one unused slice |
| RingBufferExamples.UnusedWrapsWhenEmpty | src/ring_buffer.rs:151-161 | an empty buffer at 3 offers `[3, 8)` then `[0, 3)` |
| RingBufferExamples.UnusedContiguousWhenPartiallyFilled | src/ring_buffer.rs:164-174 | start 6 and length 3 leave `[1, 6)` as the only unused slice |
| RingBufferExamples.UnusedWrapsWhenPartiallyFilled | src/ring_buffer.rs:177-188 | start 2 and length 5 leave `[7, 8)` then `[0, 2)` |
| RingBufferExamples.UnusedWhenFull | src/ring_buffer.rs:191-198 | a full buffer has no unused place |
| RingBufferExamples.SlicesFromWhenEmpty | src/ring_buffer.rs:201-207 | an empty buffer offers nothing |
| RingBufferExamples.SlicesFromContiguous | src/ring_buffer.rs:210-223 | a reader at 3 of the buffer holding `[0, 1]` at 2 is offered `[1]` |
| RingBufferExamples.SlicesFromWrapping | src/ring_buffer.rs:226-242 | a reader at 7 of the buffer holding `[0, 1, 2, 3, 4]` at 5 is offered `[2]` then `[3, 4]` |
| RingBufferExamples.RemoveFromFull | src/ring_buffer.rs:101-105 | removing 3 from a full buffer at 0 leaves it at 3 with 5 bytes |
| RingBufferExamples.OfferedAfterRemove | src/ring_buffer.rs:70-95 | then a reader at 5 is offered `[5, 6, 7]` in one slice |
| RingBufferExamples.UnusedAfterRemove | src/ring_buffer.rs:53-68 | then the free space is `[0, 3)`, in one slice |
| RingBufferExamples.WriteUsesFirstSlice | src/ring_buffer.rs:53-68 | so three bytes written into it all go into the first slice |
| RingBufferExamples.FillAtFront | src/ring_buffer.rs:53-68 | which places them at the front of the store, leaving the valid bytes alone |
| RingBufferExamples.WriteWraps | src/ring_buffer.rs:53-68 | so writing three more bytes wraps them to the front |
| RingBufferExamples.AppendWraps | src/ring_buffer.rs:53-99 | and committing them fills the buffer |
| RingBufferExamples.OfferedAfterAppend | src/ring_buffer.rs:70-95 | then a reader at 6 is offered `[6, 7]` and then the three new bytes |
| Slabs.Empty | src/server.rs:41 | a new slab holds no key |
| Slabs.FirstVacant | src/server.rs:41-45 | the lowest vacant slot at or after a position, or the length when every slot is occupied |
| Slabs.Insert | src/server.rs:69-79 | inserting stores the value under a key that was free, every lower key is taken, and no other slot changes |
| Slabs.Remove | src/server.rs:101-103 | removing a key frees its slot and changes no other slot or key |
| Servers.Listen | src/server.rs:34-56 | listening succeeds exactly when binding and spawning both do, and reports the bind error before the spawn error; on success the buffer is empty with capacity 4096 and the only connection is standard output, positioned at the buffer's end |
| Servers.PollAccept | src/server.rs:69-79 | a ready accept inserts a Unix connection at the buffer's current end under a previously free id, growing the table by at most that one slot, leaves every other connection and the buffer untouched, and reports the id; a listener that is not ready gives pending and a failed accept passes its error on, both changing nothing |
| Servers.EntryAfter | src/server.rs:95-106 | a vacant slot stays vacant; an occupied one survives exactly when its pipe did not break, keeping its sink and moving its cursor on by the count written, modulo the capacity |
| Servers.PollWrite | src/server.rs:81-116 | one write round: pending on an empty buffer; an error other than a broken pipe fails it with the error of the lowest live connection that reported one, with the buffer untouched, every lower slot already updated and every higher slot as it was; otherwise each cursor moves by what its connection wrote, broken pipes are removed, and the buffer drops the minimum of its length and all counts written (0 if any connection would block); the round is ready exactly when that minimum is positive |
| Servers.Commit | src/server.rs:138-143 | pending, with nothing changed, exactly when no byte arrived, and otherwise ready with the count; the length grows by the count within the capacity, the connections are kept, and the bytes are appended in order when the second region was used only after the first was filled |
| Servers.PollRead | src/server.rs:118-144 | a read step keeps the connections and the existing stream and never reads into a full buffer; a failed read passes its error on, keeping the stream (and, for the first region, changing nothing); a first read that is not ready changes nothing; otherwise the step is ready with the total count exactly when some byte arrived, changes nothing when none did, and grows the length by that total |
| ServerLoop.Clip | src/server.rs:125-127 | a read into a region delivers no more bytes than the region holds: what the child produced, cut to the region, with other outcomes unchanged |
| ServerLoop.FitWrite | src/server.rs:90-95 | a live connection's write count is cut to what it was offered; every other outcome, and every count that already fits, is unchanged |
| ServerLoop.FitWrites | src/server.rs:90-95 | every live connection's write then fits what it was offered, and only counts that did not fit change |
| ServerLoop.PollInner | src/server.rs:58-67 | the poll loop keeps the server valid and every cursor in the window, and never completes successfully: it yields pending or passes an error on |
| ServerTheory.RoundBuffer | src/server.rs:110-115 | after a round without a fatal error the buffer has dropped exactly what the round reclaimed |
| ServerTheory.RoundEntry | src/server.rs:88-108 | after a round without a fatal error each slot is what its own outcome made of it |
| ServerTheory.RoundBound | src/server.rs:96-105 | a round without a fatal error reclaims no more than any connection that did not fail wrote |
| ServerTheory.WriteRoundKeepsUnsent | src/server.rs:81-116 | a connection survives a round exactly when its pipe did not break, and a survivor stays in the window and is offered exactly its previously unsent bytes minus those it wrote, except a connection that wrote all of a full buffer in a round that reclaimed nothing (see `RingBuffers.FullCatchUpIsOfferedAgain`) |
| ServerTheory.ZeroWriteStallsRound | src/server.rs:96-99 | one live connection that reports zero bytes written makes the round pending and reclaims nothing |
| ServerTheory.FatalRoundReportsFirst | src/server.rs:88-104 | a round with a fatal error reports the error of the lowest live connection that failed, leaves the buffer untouched, and has applied exactly the outcomes below that connection |
| ServerTheory.AllBrokenReclaimsAll | src/server.rs:81-116 | when every live connection's pipe broke, the round reclaims the whole buffer, leaves it empty and leaves no connection |
| ServerTheory.ReclaimedBoundedBySurvivors | src/server.rs:99-112 | what a round reclaims is at most what every surviving connection wrote, and the length drops by exactly that |
| ServerTheory.PollReadAppends | src/server.rs:118-144 | when the first read delivered bytes, no read into a used region failed, and the second region is used only after the first was filled, the step appends exactly the bytes read, in order, and is ready with their count exactly when some arrived |
| ServerTheory.ProgressShrinksBuffer | src/server.rs:110-112 | a write round that makes progress shortens the buffer by exactly the count it reports |
| ServerTheory.ListenInWindow | src/server.rs:39-45 | a freshly listening server's only cursor is in the window |
| ServerTheory.PollAcceptKeepsWindow | src/server.rs:69-79 | accepting keeps every cursor in the window |
| ServerTheory.PollReadKeepsWindow | src/server.rs:118-144 | reading keeps every cursor in the window |
| ServerTheory.WriteRoundKeepsWindowAt | src/server.rs:81-116 | a connection that is live after a write round in which no sink claimed more than it was offered is in the window, whether or not the round failed |
| ServerTheory.PollWriteKeepsWindow | src/server.rs:81-116 | such a write round keeps every cursor in the window |
| ServerTheory.PartialFillCommitsUnwrittenByte | src/server.rs:118-144 | with start 2 of capacity 4, reading one byte into each region commits two bytes, the second of which was never written |

## Left out

- Tokio, sockets, the child process and the `Context`/waker machinery are not modelled. Each call's outcome is an input instead: `AcceptOutcome`, a `WriteOutcome` per connection id, or a `ReadOutcome` per region.
- src/connection.rs is not part of this model. A connection is reduced to its sink kind (`Stdio` or `Unix`) and its cursor; `async_write`'s delegation is folded into the write outcome.
- src/main.rs (argument parsing, the runtime) is not part of this model.
- `MaybeUninit`, `transmute` and the unsafe slice splitting are not modelled. The store always holds bytes (zeros at first), and validity is tracked only through start and length.
- `RingBuffer::new` with a capacity of 0 would divide by zero in the cursor arithmetic. `RingBuffers.New` requires a positive capacity, and the server only uses 4096.
- `usize` overflow of `cursor.inner + n` or `len + n` is not modelled: integers are unbounded. In the server every summand is at most 4096.
- `AddAssign` has no member of its own. `c += n` is the assignment `c := Add(c, n, cap)`.
- Slabs.Insert: the real slab reuses the most recently freed key first (LIFO free list), while the model takes the lowest free key. Only "a previously free key, other slots untouched" is relied on.
- Slabs.Insert: `Slab::with_capacity` and the slab's capacity are modelled as the entry sequence's length. `poll_write` iterating to `capacity()` visits the same occupied slots.
- ServerLoop.PollInner: promises validity, the window invariant and "never ready with success", not the resulting stream. Each source's outcomes come as a finite list. A used-up list reports "not ready": the listener and the child are not ready, and every connection would block. Write rounds still run once the write outcomes are used up, so the loop ends because each round that makes progress shortens the buffer. Write counts are cut to what was offered and reads to their regions, as the vectored write and the read buffer guarantee.
- Servers.PollRead: a zero-byte `Ready` read (end of file) is modelled as the release build treats it. Nothing is added and the loop goes on to the second region; the `debug_assert` is not modelled.
- The `unwrap` of the child's piped standard output cannot fail once `listen` succeeded, and is not modelled.
- The `Future` implementation (src/server.rs:147-153) only forwards to `poll_inner` and is not modelled separately.

=== FILE: modular.dfy ===
/** Facts about `%` on naturals that the ring-buffer proofs lean on. */
module Modular {

  lemma MulAtLeast(d: int, m: nat)
    requires d >= 1 && m > 0
    ensures d * m >= m
  {
  }

  /** An index below twice the modulus wraps at most once. */
  lemma WrapOnce(x: nat, m: nat)
    requires 0 < m && x < 2 * m
    ensures x % m == if x < m then x else x - m
  {
  }

  /** The remainder is the unique `r < m` with `x == q * m + r`. */
  lemma ModUnique(x: nat, q: nat, r: nat, m: nat)
    requires 0 < m && r < m && x == q * m + r
    ensures x % m == r
  {
    var q', r' := x / m, x % m;
    assert (q - q') * m == r' - r;
    if q > q' {
      MulAtLeast(q - q', m);
    } else if q' > q {
      MulAtLeast(q' - q, m);
    }
  }

  /** Reducing an addend first does not change the sum's remainder. */
  lemma ModAddLeft(x: nat, y: nat, m: nat)
    requires 0 < m
    ensures (x % m + y) % m == (x + y) % m
  {
    var s := x % m + y;
    ModUnique(s, s / m, s % m, m);
    assert x + y == (x / m + s / m) * m + s % m;
    ModUnique(x + y, x / m + s / m, s % m, m);
  }
}

=== FILE: poll_loop.dfy ===
/**
  The server's poll loop: accept, then alternate draining the buffer to the
  connections with refilling it from the child, until the child has nothing
  more to give. Every outcome is supplied as an input, one per poll.
*/
module ServerLoop {
  import opened RingBuffers
  import opened Slabs
  import opened Servers
  import opened ServerTheory

  /** A read into a region of `room` bytes delivers at most `room` of the
      bytes the child has produced. */
  function Clip(o: ReadOutcome, room: nat): (r: ReadOutcome)
    ensures |BytesOf(r)| <= room
    ensures r.Filled? <==> o.Filled?
    ensures r.Filled? ==> r.bytes <= o.bytes && (|o.bytes| <= room ==> r == o)
    ensures !o.Filled? ==> r == o
  {
    match o
    case Filled(bytes) => Filled(bytes[..Min(|bytes|, room)])
    case NotReady => NotReady
    case ReadFailed(e) => ReadFailed(e)
  }

  /** One connection's write outcome, cut to what it was offered. */
  function FitWrite(s: Server, out: nat -> WriteOutcome, id: nat): (r: WriteOutcome)
    requires ServerValid(s)
    ensures IsLive(s, id) && r.Written? ==> r.n <= Available(s.buffer, CursorOf(s, id))
    ensures r.Written? <==> out(id).Written?
    ensures r.Written? ==> r.n <= out(id).n
    ensures !IsLive(s, id) || !out(id).Written? || WriteFits(s, out, id) ==> r == out(id)
  {
    if IsLive(s, id) && out(id).Written? then
      Written(Min(out(id).n, Available(s.buffer, CursorOf(s, id))))
    else
      out(id)
  }

  /** A vectored write reports at most the bytes it was offered: a live
      connection's reported count is cut to what is available to it, and
      every other outcome is left as it is. */
  function FitWrites(s: Server, out: nat -> WriteOutcome): (r: nat -> WriteOutcome)
    requires ServerValid(s)
    ensures forall id: nat :: IsLive(s, id) ==> WriteFits(s, r, id)
    ensures forall id: nat :: r(id).Written? <==> out(id).Written?
    ensures forall id: nat :: !out(id).Written? ==> r(id) == out(id)
    ensures forall id: nat :: r(id).Written? ==> r(id).n <= out(id).n
    ensures forall id: nat :: IsLive(s, id) && WriteFits(s, out, id) ==> r(id) == out(id)
  {
    (id: nat) => FitWrite(s, out, id)
  }

  /** `poll_inner`: accept until the listener is not ready; then, repeatedly,
      write until a round makes no progress and read once, until a read makes
      no progress; and yield. Each argument lists what the corresponding
      source reports on successive polls; a source whose list is used up
      reports not ready (a connection: it would block). Once the write
      outcomes are used up, rounds still run: with no live connection one
      reclaims the whole buffer. Reads are cut to their regions and writes to what
      they were offered, so every cursor that starts in the window stays
      there. */
  method PollInner(s: Server, accepts: seq<AcceptOutcome>, writes: seq<nat -> WriteOutcome>,
                   childReads: seq<(ReadOutcome, ReadOutcome)>)
    returns (s': Server, p: Poll<Result<()>>)
    requires ServerValid(s)
    ensures ServerValid(s')
    ensures !IsReadyOk(p)
    ensures CursorsInWindow(s) ==> CursorsInWindow(s')
  {
    s' := s;
    var i := 0;
    while i < |accepts|
      invariant ServerValid(s')
      invariant CursorsInWindow(s) ==> CursorsInWindow(s')
    {
      if CursorsInWindow(s') {
        PollAcceptKeepsWindow(s', accepts[i]);
      }
      var r := PollAccept(s', accepts[i]);
      s' := r.0;
      i := i + 1;
      match r.1
      case Pending => break;
      case Ready(Err(e)) => return s', Ready(Err(e));
      case Ready(Ok(_)) =>
    }

    var w, k := 0, 0;
    while true
      invariant ServerValid(s') && w <= |writes| && k <= |childReads|
      invariant CursorsInWindow(s) ==> CursorsInWindow(s')
      decreases |childReads| - k
    {
      while true
        invariant ServerValid(s') && w <= |writes|
        invariant CursorsInWindow(s) ==> CursorsInWindow(s')
        decreases |writes| - w, Len(s'.buffer)
      {
        var before := s';
        var out := FitWrites(before, if w < |writes| then writes[w] else (_: nat) => WouldBlock);
        var wp;
        s', wp := PollWrite(before, out);
        if CursorsInWindow(before) {
          PollWriteKeepsWindow(before, out, s', wp);
        }
        if w < |writes| {
          w := w + 1;
        }
        match wp
        case Pending => break;
        case Ready(Err(e)) => return s', Ready(Err(e));
        case Ready(Ok(_)) =>
          ProgressShrinksBuffer(before, out, s', wp);
      }
      var u := UnusedSlices(s'.buffer);
      var next := if k < |childReads| then childReads[k] else (NotReady, NotReady);
      var first, second := Clip(next.0, Length(u.first)), Clip(next.1, Length(u.second));
      if CursorsInWindow(s') {
        PollReadKeepsWindow(s', first, second);
      }
      var r := PollRead(s', first, second);
      s' := r.0;
      match r.1
      case Pending => break;
      case Ready(Err(e)) => return s', Ready(Err(e));
      case Ready(Ok(_)) =>
        assert k < |childReads|;
        k := k + 1;
    }
    return s', Pending;
  }
}

=== FILE: ring_buffer.dfy ===
/**
  A fixed-capacity circular byte store read through any number of external
  cursors (`RingBuffer` and `RingBufferCursor` of the fan-out server).

  The Rust type is generic over a `CAPACITY` constant; here the capacity of a
  buffer is the length of its backing sequence.  Regions the Rust code hands
  out as slices are modelled as `(lo, hi)` index pairs into that sequence, and
  "initialised" is tracked only through the start/length invariant.
*/
module RingBuffers {
  import Modular

  newtype u8 = x: int | 0 <= x < 256

  function Min(a: nat, b: nat): nat
  {
    if a <= b then a else b
  }

  // ---------------------------------------------------------------------------
  // Cursors
  // ---------------------------------------------------------------------------

  /** A position in the index space `[0, cap)` of a buffer. */
  datatype Cursor = Cursor(inner: nat)

  /** `cursor + n`: advance modulo the capacity. (`cursor += n` is the
      assignment `c := Add(c, n, cap)`.) */
  function Add(c: Cursor, n: nat, cap: nat): (r: Cursor)
    requires cap > 0
    ensures r.inner < cap
  {
    Cursor((c.inner + n) % cap)
  }

  /** Advancing twice is advancing once by the sum. */
  lemma AddComposes(c: Cursor, a: nat, b: nat, cap: nat)
    requires cap > 0
    ensures Add(Add(c, a, cap), b, cap) == Add(c, a + b, cap)
    ensures Add(c, a, cap).inner == (c.inner + a) % cap
  {
    Modular.ModAddLeft(c.inner + a, b, cap);
  }

  // ---------------------------------------------------------------------------
  // Index ranges and slice pairs
  // ---------------------------------------------------------------------------

  /** The half-open index range `[lo, hi)` of one slice. */
  datatype Range = Range(lo: nat, hi: nat)

  /** The empty slice `&[]`. */
  const NoRange := Range(0, 0)

  function Length(r: Range): nat
  {
    if r.lo <= r.hi then r.hi - r.lo else 0
  }

  predicate InRange(r: Range, i: nat)
  {
    r.lo <= i < r.hi
  }

  predicate Within(r: Range, cap: nat)
  {
    r.lo <= r.hi <= cap
  }

  /** The pair of slices `[first, second]` the buffer hands out. */
  datatype Slices = Slices(first: Range, second: Range)

  function Total(s: Slices): nat
  {
    Length(s.first) + Length(s.second)
  }

  predicate SlicesWithin(s: Slices, cap: nat)
  {
    Within(s.first, cap) && Within(s.second, cap)
  }

  predicate Covers(s: Slices, i: nat)
  {
    InRange(s.first, i) || InRange(s.second, i)
  }

  /** The physical index of the `j`-th element when `first` and then `second`
      are visited in order. */
  function At(s: Slices, j: nat): nat
  {
    if j < Length(s.first) then s.first.lo + j else s.second.lo + (j - Length(s.first))
  }

  /** The bytes the two slices denote, in order. */
  function Read(data: seq<u8>, s: Slices): (r: seq<u8>)
    requires SlicesWithin(s, |data|)
    ensures |r| == Total(s)
    ensures forall j :: 0 <= j < |r| ==> r[j] == data[At(s, j)]
  {
    data[s.first.lo..s.first.hi] + data[s.second.lo..s.second.hi]
  }

  // ---------------------------------------------------------------------------
  // The buffer
  // ---------------------------------------------------------------------------

  /** `data` is the backing store, `cursor` the start of valid data and `len`
      the number of valid bytes from there on. */
  datatype RingBuffer = RingBuffer(data: seq<u8>, cursor: Cursor, len: nat)

  predicate Valid(b: RingBuffer)
  {
    0 < |b.data| && b.cursor.inner < |b.data| && b.len <= |b.data|
  }

  function Capacity(b: RingBuffer): nat
  {
    |b.data|
  }

  /** `is_empty()`: no byte is valid. */
  function IsEmpty(b: RingBuffer): (r: bool)
    ensures Valid(b) ==> (r <==> Stream(b) == [])
  {
    b.len == 0
  }

  /** `is_full()`: the stream fills the whole store (see `FullExactlyWhenAllValid`). */
  function IsFull(b: RingBuffer): (r: bool)
    ensures Valid(b) ==> (r <==> |Stream(b)| == Capacity(b))
  {
    b.len == |b.data|
  }

  /** `len()`: the number of valid bytes, the length of the stream. */
  function Len(b: RingBuffer): (r: nat)
    ensures Valid(b) ==> r == |Stream(b)| <= Capacity(b)
  {
    b.len
  }

  /** `start()`: the position of the oldest valid byte, logical position 0. */
  function Start(b: RingBuffer): (r: Cursor)
    ensures Valid(b) ==> r.inner < Capacity(b) && Offset(b, r.inner) == 0
    ensures Valid(b) && !IsEmpty(b) ==> IsValidIndex(b, r.inner)
  {
    b.cursor
  }

  function End(b: RingBuffer): (r: Cursor)
    requires Valid(b)
    ensures r.inner < Capacity(b)
  {
    Add(b.cursor, b.len, |b.data|)
  }

  /** Physical index of the byte `j` places after the start. */
  function Pos(b: RingBuffer, j: nat): (r: nat)
    requires Valid(b) && j < Capacity(b)
    ensures r < Capacity(b)
  {
    (b.cursor.inner + j) % |b.data|
  }

  /** Logical distance of physical index `i` from the start, counted forward
      around the ring. */
  function Offset(b: RingBuffer, i: nat): (r: nat)
    requires Valid(b) && i < Capacity(b)
    ensures r < Capacity(b)
  {
    if i >= b.cursor.inner then i - b.cursor.inner else i + |b.data| - b.cursor.inner
  }

  /** Whether physical index `i` holds a valid (initialised) byte. */
  predicate IsValidIndex(b: RingBuffer, i: nat)
    requires Valid(b) && i < Capacity(b)
  {
    Offset(b, i) < b.len
  }

  /** The valid bytes in logical order, oldest first. */
  function Stream(b: RingBuffer): (r: seq<u8>)
    requires Valid(b)
    ensures |r| == b.len
  {
    seq(b.len, j requires 0 <= j < b.len => b.data[Pos(b, j)])
  }

  /** Pos and Offset are inverse bijections of `[0, cap)`. */
  lemma PosOffset(b: RingBuffer)
    requires Valid(b)
    ensures forall j :: 0 <= j < Capacity(b) ==> Offset(b, Pos(b, j)) == j
    ensures forall i :: 0 <= i < Capacity(b) ==> Pos(b, Offset(b, i)) == i
  {
    Unwrap(b);
    forall j | 0 <= j < Capacity(b)
      ensures Offset(b, Pos(b, j)) == j
    {
    }
    forall i | 0 <= i < Capacity(b)
      ensures Pos(b, Offset(b, i)) == i
    {
    }
  }

  /** `%` written out: every index below twice the capacity wraps at most once. */
  lemma Unwrap(b: RingBuffer)
    requires Valid(b)
    ensures End(b).inner == if b.cursor.inner + b.len < |b.data| then b.cursor.inner + b.len
                            else b.cursor.inner + b.len - |b.data|
    ensures forall j :: 0 <= j < Capacity(b) ==>
      Pos(b, j) == if b.cursor.inner + j < |b.data| then b.cursor.inner + j else b.cursor.inner + j - |b.data|
  {
    Modular.WrapOnce(b.cursor.inner + b.len, |b.data|);
    forall j | 0 <= j < Capacity(b)
      ensures Pos(b, j) == if b.cursor.inner + j < |b.data| then b.cursor.inner + j else b.cursor.inner + j - |b.data|
    {
      Modular.WrapOnce(b.cursor.inner + j, |b.data|);
    }
  }

  /** A buffer whose start lies `m` bytes further on sees the same physical
      indices, shifted by `m`. */
  lemma PosShift(b: RingBuffer, b': RingBuffer, m: nat)
    requires Valid(b) && Valid(b') && m <= Capacity(b) && b'.data == b.data
    requires b'.cursor == Add(b.cursor, m, |b.data|)
    ensures forall j :: 0 <= j < Capacity(b) - m ==> Pos(b', j) == Pos(b, m + j)
  {
    forall j | 0 <= j < Capacity(b) - m
      ensures Pos(b', j) == Pos(b, m + j)
    {
      Modular.ModAddLeft(b.cursor.inner + m, j, |b.data|);
    }
  }

  /** A buffer is full exactly when every place of the store holds a valid
      byte, and empty exactly when none does. */
  lemma FullExactlyWhenAllValid(b: RingBuffer)
    requires Valid(b)
    ensures IsFull(b) <==> forall i :: 0 <= i < Capacity(b) ==> IsValidIndex(b, i)
    ensures IsEmpty(b) <==> forall i :: 0 <= i < Capacity(b) ==> !IsValidIndex(b, i)
  {
    if !IsFull(b) {
      Modular.WrapOnce(b.cursor.inner + b.len, |b.data|);
      assert !IsValidIndex(b, End(b).inner);
    }
    if !IsEmpty(b) {
      assert IsValidIndex(b, Start(b).inner);
    }
  }

  /** `RingBuffer::new()`: an empty buffer whose start is 0. The Rust store is
      uninitialised; here it holds zeros, which no operation can observe. */
  function New(cap: nat): (r: RingBuffer)
    requires cap > 0
    ensures Valid(r) && Capacity(r) == cap
    ensures IsEmpty(r) && Start(r) == Cursor(0) && End(r) == Start(r)
    ensures Stream(r) == []
  {
    RingBuffer(seq(cap, _ => 0), Cursor(0), 0)
  }

  /** `end() == start()` exactly when the buffer is empty or full. */
  lemma EndMeetsStart(b: RingBuffer)
    requires Valid(b)
    ensures End(b).inner == (Start(b).inner + Len(b)) % Capacity(b)
    ensures End(b) == Start(b) <==> IsEmpty(b) || IsFull(b)
    ensures !IsFull(b) ==> End(b).inner == Pos(b, b.len)
  {
  }

  // ---------------------------------------------------------------------------
  // Unused (writable) regions
  // ---------------------------------------------------------------------------

  /** `unused_slices()`: the free space `[end, start)` around the ring, split
      at the physical boundary. */
  function UnusedSlices(b: RingBuffer): (r: Slices)
    requires Valid(b)
    ensures SlicesWithin(r, Capacity(b))
    ensures r.first.lo == End(b).inner
    ensures Total(r) == Capacity(b) - Len(b)
    ensures IsFull(b) ==> Length(r.first) == 0 && Length(r.second) == 0
    ensures Length(r.second) > 0 ==> r.second.lo == 0
    ensures forall j :: 0 <= j < Total(r) ==> At(r, j) == Pos(b, b.len + j)
  {
    Unwrap(b);
    var start := Start(b).inner;
    var end := End(b).inner;
    if IsEmpty(b) || end > start then
      Slices(Range(end, Capacity(b)), Range(0, start))
    else
      Slices(Range(end, start), NoRange)
  }

  /** The unused slices are disjoint and cover exactly the positions that do
      not hold valid bytes. */
  lemma UnusedSlicesAreFreeSpace(b: RingBuffer)
    requires Valid(b)
    ensures forall i :: !(InRange(UnusedSlices(b).first, i) && InRange(UnusedSlices(b).second, i))
    ensures forall i :: 0 <= i < Capacity(b) ==>
      (Covers(UnusedSlices(b), i) <==> !IsValidIndex(b, i))
  {
    var r := UnusedSlices(b);
    PosOffset(b);
    forall i | 0 <= i < Capacity(b) && Covers(r, i)
      ensures !IsValidIndex(b, i)
    {
      var j := if InRange(r.first, i) then i - r.first.lo else Length(r.first) + (i - r.second.lo);
      assert At(r, j) == i;
    }
    forall i | 0 <= i < Capacity(b) && !IsValidIndex(b, i)
      ensures Covers(r, i)
    {
      var j := Offset(b, i) - b.len;
      assert At(r, j) == i;
    }
  }

  // ---------------------------------------------------------------------------
  // Readable regions
  // ---------------------------------------------------------------------------

  /** How many bytes `slices_from(c)` offers: everything from `c` to the end
      when `c` points at a valid byte, nothing otherwise. */
  function Available(b: RingBuffer, c: Cursor): nat
    requires Valid(b) && c.inner < Capacity(b)
  {
    if Offset(b, c.inner) < b.len then b.len - Offset(b, c.inner) else 0
  }

  /** `slices_from(cursor)`: the valid bytes from `c` up to `end()`, split at
      the physical boundary; a cursor outside the valid region gets nothing. */
  function SlicesFrom(b: RingBuffer, c: Cursor): (r: Slices)
    requires Valid(b) && c.inner < Capacity(b)
    ensures SlicesWithin(r, Capacity(b))
    ensures Total(r) == Available(b, c)
    ensures Total(r) > 0 ==> r.first.lo == c.inner && Length(r.first) > 0
    ensures Length(r.second) > 0 ==> r.second.lo == 0
    ensures forall j :: 0 <= j < Total(r) ==> At(r, j) == Pos(b, Offset(b, c.inner) + j)
  {
    Unwrap(b);
    var cursor := c.inner;
    var start := Start(b).inner;
    var end := End(b).inner;
    if IsEmpty(b) || end > start then
      if cursor >= start && cursor < end then
        Slices(Range(cursor, end), NoRange)
      else
        Slices(NoRange, NoRange)
    else
      if cursor >= start then
        Slices(Range(cursor, Capacity(b)), Range(0, end))
      else if cursor < end then
        Slices(Range(cursor, end), NoRange)
      else
        Slices(NoRange, NoRange)
  }

  /** The slices from `c` hold exactly the stream from `c`'s logical position
      on, and hand out valid bytes only. */
  lemma ReadSlicesFrom(b: RingBuffer, c: Cursor)
    requires Valid(b) && c.inner < Capacity(b)
    ensures Offset(b, c.inner) < Len(b) ==>
      Read(b.data, SlicesFrom(b, c)) == Stream(b)[Offset(b, c.inner)..]
    ensures Offset(b, c.inner) >= Len(b) ==> Read(b.data, SlicesFrom(b, c)) == []
    ensures forall i :: 0 <= i < Capacity(b) && Covers(SlicesFrom(b, c), i) ==> IsValidIndex(b, i)
  {
    var r := SlicesFrom(b, c);
    var off := Offset(b, c.inner);
    PosOffset(b);
    if off < Len(b) {
      assert Read(b.data, r) == Stream(b)[off..];
    }
    forall i | 0 <= i < Capacity(b) && Covers(r, i)
      ensures IsValidIndex(b, i)
    {
      var j := if InRange(r.first, i) then i - r.first.lo else Length(r.first) + (i - r.second.lo);
      assert At(r, j) == i;
    }
  }

  // ---------------------------------------------------------------------------
  // Committing and reclaiming
  // ---------------------------------------------------------------------------

  /** `assume_init(n)`: `n` more bytes after the end are valid, saturating at
      the capacity; nothing is moved. */
  function AssumeInit(b: RingBuffer, n: nat): (r: RingBuffer)
    requires Valid(b)
    ensures Valid(r) && r.data == b.data && Start(r) == Start(b)
    ensures Len(r) == Min(Len(b) + n, Capacity(b))
    ensures Stream(b) <= Stream(r)
  {
    RingBuffer(b.data, b.cursor, Min(b.len + n, |b.data|))
  }

  /** `remove(n)`: drop the oldest `min(n, len)` bytes by advancing the start. */
  function Remove(b: RingBuffer, n: nat): (r: RingBuffer)
    requires Valid(b)
    ensures Valid(r) && r.data == b.data
    ensures Start(r) == Add(Start(b), Min(n, Len(b)), Capacity(b))
    ensures Len(r) == Len(b) - Min(n, Len(b))
    ensures End(r) == End(b)
    ensures Stream(r) == Stream(b)[Min(n, Len(b))..]
    ensures n >= Len(b) ==> IsEmpty(r)
  {
    var m := Min(n, b.len);
    var r := RingBuffer(b.data, Add(b.cursor, m, |b.data|), b.len - m);
    RemoveKeepsEnd(b, r, m);
    RemoveShifts(b, r, m);
    r
  }

  /** The buffer whose start is `m` bytes further on and which holds `m`
      bytes fewer ends where `b` ends. */
  lemma RemoveKeepsEnd(b: RingBuffer, r: RingBuffer, m: nat)
    requires Valid(b) && m <= b.len
    requires r == RingBuffer(b.data, Add(b.cursor, m, |b.data|), b.len - m)
    ensures Valid(r) && End(r) == End(b)
  {
    var cap := |b.data|;
    var x := b.cursor.inner + m;
    assert r.cursor.inner == x % cap;
    Modular.ModAddLeft(x, b.len - m, cap);
    assert x % cap + (b.len - m) == r.cursor.inner + r.len;
    assert x + (b.len - m) == b.cursor.inner + b.len;
  }

  /** That buffer holds `b`'s stream minus its first `m` bytes. */
  lemma RemoveShifts(b: RingBuffer, r: RingBuffer, m: nat)
    requires Valid(b) && m <= b.len
    requires r == RingBuffer(b.data, Add(b.cursor, m, |b.data|), b.len - m)
    ensures Valid(r)
    ensures Stream(r) == Stream(b)[m..]
  {
    PosShift(b, r, m);
    forall j | 0 <= j < r.len
      ensures Stream(r)[j] == Stream(b)[m..][j]
    {
      assert Pos(r, j) == Pos(b, m + j);
    }
  }

  // ---------------------------------------------------------------------------
  // Writing into the unused regions
  // ---------------------------------------------------------------------------

  /** Overwrite `d` with `x` from index `at` on. */
  function Fill(d: seq<u8>, at: nat, x: seq<u8>): (r: seq<u8>)
    requires at + |x| <= |d|
    ensures |r| == |d|
    ensures forall i :: 0 <= i < |d| ==> r[i] == if at <= i < at + |x| then x[i - at] else d[i]
  {
    d[..at] + x + d[at + |x|..]
  }

  /** Write `x` at the beginning of the first unused slice and `y` at the
      beginning of the second; `len` is not touched. */
  function FillRegions(b: RingBuffer, x: seq<u8>, y: seq<u8>): (r: RingBuffer)
    requires Valid(b)
    requires |x| <= Length(UnusedSlices(b).first) && |y| <= Length(UnusedSlices(b).second)
    ensures Valid(r) && Capacity(r) == Capacity(b) && Start(r) == Start(b) && Len(r) == Len(b)
  {
    var u := UnusedSlices(b);
    RingBuffer(Fill(Fill(b.data, u.first.lo, x), u.second.lo, y), b.cursor, b.len)
  }

  /** Write `bytes` in order into the unused slices: the first slice is filled
      before anything goes into the second. */
  function WriteUnused(b: RingBuffer, bytes: seq<u8>): (r: RingBuffer)
    requires Valid(b) && |bytes| <= Capacity(b) - Len(b)
    ensures Valid(r) && Capacity(r) == Capacity(b) && Start(r) == Start(b) && Len(r) == Len(b)
  {
    var k := Min(|bytes|, Length(UnusedSlices(b).first));
    FillRegions(b, bytes[..k], bytes[k..])
  }

  /** Writing into the unused slices never disturbs a valid byte. */
  lemma FillKeepsStream(b: RingBuffer, x: seq<u8>, y: seq<u8>)
    requires Valid(b)
    requires |x| <= Length(UnusedSlices(b).first) && |y| <= Length(UnusedSlices(b).second)
    ensures Stream(FillRegions(b, x, y)) == Stream(b)
  {
    var r := FillRegions(b, x, y);
    var u := UnusedSlices(b);
    var mid := Fill(b.data, u.first.lo, x);
    assert r.data == Fill(mid, u.second.lo, y);
    UnusedSlicesAreFreeSpace(b);
    PosOffset(b);
    forall j | 0 <= j < b.len
      ensures Stream(r)[j] == Stream(b)[j]
    {
      var i := Pos(b, j);
      assert Pos(r, j) == i;
      assert IsValidIndex(b, i);
      assert !InRange(u.first, i) && !InRange(u.second, i);
      assert mid[i] == b.data[i];
      assert r.data[i] == mid[i];
    }
    assert Stream(r) == Stream(b);
  }

  /** The byte `t` places after the end of a filled buffer is byte `t` of
      what was written, when the second slice is used only once the first is
      full. */
  lemma FillAppendsAt(b: RingBuffer, x: seq<u8>, y: seq<u8>, t: nat)
    requires Valid(b)
    requires |x| <= Length(UnusedSlices(b).first) && |y| <= Length(UnusedSlices(b).second)
    requires |x| == Length(UnusedSlices(b).first) || |y| == 0
    requires t < |x| + |y|
    ensures FillRegions(b, x, y).data[Pos(b, b.len + t)] == (x + y)[t]
  {
    var u := UnusedSlices(b);
    assert At(u, t) == Pos(b, b.len + t);
    if t < |x| {
      assert At(u, t) == u.first.lo + t;
    } else {
      assert At(u, t) == u.second.lo + (t - |x|);
    }
  }

  /** Byte `b.len + t` of the committed stream is byte `t` of what was
      written. */
  lemma FillThenCommitAt(b: RingBuffer, x: seq<u8>, y: seq<u8>, t: nat)
    requires Valid(b)
    requires |x| <= Length(UnusedSlices(b).first) && |y| <= Length(UnusedSlices(b).second)
    requires |x| == Length(UnusedSlices(b).first) || |y| == 0
    requires t < |x| + |y|
    ensures Valid(AssumeInit(FillRegions(b, x, y), |x| + |y|))
    ensures Stream(AssumeInit(FillRegions(b, x, y), |x| + |y|))[b.len + t] == (x + y)[t]
  {
    var f := FillRegions(b, x, y);
    var r := AssumeInit(f, |x| + |y|);
    var j := b.len + t;
    assert r.data == f.data && Pos(r, j) == Pos(b, j);
    assert Stream(r)[j] == r.data[Pos(r, j)];
    FillAppendsAt(b, x, y, t);
  }

  /** Filling the slices in order and committing the bytes appends them to the
      stream, provided the second slice is only used once the first is full. */
  lemma FillThenCommit(b: RingBuffer, x: seq<u8>, y: seq<u8>)
    requires Valid(b)
    requires |x| <= Length(UnusedSlices(b).first) && |y| <= Length(UnusedSlices(b).second)
    requires |x| == Length(UnusedSlices(b).first) || |y| == 0
    ensures Stream(AssumeInit(FillRegions(b, x, y), |x| + |y|)) == Stream(b) + x + y
  {
    var f := FillRegions(b, x, y);
    var r := AssumeInit(f, |x| + |y|);
    var w := Stream(b) + x + y;
    FillKeepsStream(b, x, y);
    assert Stream(b) <= Stream(r) && Len(r) == |w|;
    forall j | 0 <= j < Len(r)
      ensures Stream(r)[j] == w[j]
    {
      if j < b.len {
        assert w[j] == Stream(b)[j];
      } else {
        FillThenCommitAt(b, x, y, j - b.len);
        assert w[j] == (x + y)[j - b.len];
      }
    }
  }

  /** Once bytes are appended to a buffer that was not full, the slices from
      the old end hold exactly the appended bytes. */
  lemma ReadFromOldEnd(b: RingBuffer, r: RingBuffer, bytes: seq<u8>)
    requires Valid(b) && Valid(r) && Capacity(r) == Capacity(b) && Start(r) == Start(b)
    requires !IsFull(b) && Stream(r) == Stream(b) + bytes
    ensures Read(r.data, SlicesFrom(r, End(b))) == bytes
  {
    Unwrap(b);
    assert Offset(r, End(b).inner) == Len(b);
    ReadSlicesFrom(r, End(b));
    if |bytes| > 0 {
      assert Stream(r)[Len(b)..] == bytes;
    }
  }

  /** The write-commit-read round trip: bytes written into the unused slices
      and committed are appended to the stream, and the slices from the old end
      read them back in order across the wrap-around. */
  lemma WriteCommitRead(b: RingBuffer, bytes: seq<u8>)
    requires Valid(b) && |bytes| <= Capacity(b) - Len(b)
    ensures Stream(AssumeInit(WriteUnused(b, bytes), |bytes|)) == Stream(b) + bytes
    ensures !IsFull(b) ==>
      var r := AssumeInit(WriteUnused(b, bytes), |bytes|);
      Read(r.data, SlicesFrom(r, End(b))) == bytes
  {
    var u := UnusedSlices(b);
    var k := Min(|bytes|, Length(u.first));
    FillThenCommit(b, bytes[..k], bytes[k..]);
    assert bytes[..k] + bytes[k..] == bytes;
    assert WriteUnused(b, bytes) == FillRegions(b, bytes[..k], bytes[k..]);
    var r := AssumeInit(WriteUnused(b, bytes), |bytes|);
    assert Stream(r) == Stream(b) + bytes;
    if !IsFull(b) {
      ReadFromOldEnd(b, r, bytes);
    }
  }

  // ---------------------------------------------------------------------------
  // Readers' progress
  // ---------------------------------------------------------------------------

  /** The bytes a reader at `c` is offered: what `slices_from(c)` denotes. */
  function Unsent(b: RingBuffer, c: Cursor): seq<u8>
    requires Valid(b) && c.inner < Capacity(b)
  {
    Read(b.data, SlicesFrom(b, c))
  }

  /** The reader at `c` lies between the start and the end (inclusive). */
  predicate InWindow(b: RingBuffer, c: Cursor)
    requires Valid(b) && c.inner < Capacity(b)
  {
    Offset(b, c.inner) <= Len(b)
  }

  /** What `slices_from` offers at the edges of the valid region:
      everything from the start; nothing to a cursor outside the valid region,
      in particular to one at the end of a buffer that is not full; and the
      whole buffer again to one at the end of a full buffer. */
  lemma SlicesFromEdges(b: RingBuffer, c: Cursor)
    requires Valid(b) && c.inner < Capacity(b)
    ensures Unsent(b, Start(b)) == Stream(b)
    ensures IsEmpty(b) ==> Unsent(b, c) == []
    ensures !IsValidIndex(b, c.inner) ==> Unsent(b, c) == []
    ensures !IsFull(b) ==> Unsent(b, End(b)) == []
    ensures IsFull(b) ==> Unsent(b, End(b)) == Stream(b)
    ensures InWindow(b, c) ==> Unsent(b, c) == Stream(b)[Offset(b, c.inner)..]
  {
    Unwrap(b);
    ReadSlicesFrom(b, Start(b));
    ReadSlicesFrom(b, c);
    ReadSlicesFrom(b, End(b));
  }

  /** A reader in the window is offered the stream from its logical position on. */
  lemma UnsentInWindow(b: RingBuffer, c: Cursor)
    requires Valid(b) && c.inner < Capacity(b) && InWindow(b, c)
    ensures Unsent(b, c) == Stream(b)[Offset(b, c.inner)..]
  {
    ReadSlicesFrom(b, c);
  }

  /** Physical index `i` seen from a buffer whose start moved on by `m`. */
  lemma OffsetAfterRemove(b: RingBuffer, m: nat, i: nat)
    requires Valid(b) && m <= Len(b) && i < Capacity(b)
    ensures Offset(Remove(b, m), i) ==
      if Offset(b, i) >= m then Offset(b, i) - m else Offset(b, i) + Capacity(b) - m
  {
    Modular.WrapOnce(b.cursor.inner + m, |b.data|);
  }

  /** A reader that consumes `k` of the bytes it is offered, followed by the
      removal of `m <= k` bytes, still finds every byte it has not consumed,
      in order: nothing unsent is discarded. The exception is a reader that
      consumes a whole full buffer when nothing is removed (see
      `FullCatchUpIsOfferedAgain`). */
  lemma ConsumeThenRemove(b: RingBuffer, c: Cursor, k: nat, m: nat)
    requires Valid(b) && c.inner < Capacity(b) && InWindow(b, c)
    requires k <= Available(b, c) && m <= k
    requires !(IsFull(b) && m == 0 && k == Available(b, c))
    ensures InWindow(Remove(b, m), Add(c, k, Capacity(b)))
    ensures Unsent(Remove(b, m), Add(c, k, Capacity(b))) == Unsent(b, c)[k..]
  {
    var t := Offset(b, c.inner) + k;
    var r := Remove(b, m);
    var c' := Add(c, k, Capacity(b));
    OffsetAfterConsume(b, c, k);
    OffsetAfterRemove(b, m, c'.inner);
    assert Offset(r, c'.inner) == t - m;
    UnsentInWindow(b, c);
    UnsentInWindow(r, c');
    assert Stream(r) == Stream(b)[m..];
    assert Stream(r)[t - m..] == Stream(b)[t..];
    assert Unsent(b, c)[k..] == Stream(b)[t..];
  }

  /** A reader placed at the end is in the window: at logical position `len`,
      or at 0 when the buffer is full. */
  lemma EndInWindow(b: RingBuffer)
    requires Valid(b)
    ensures InWindow(b, End(b))
    ensures Offset(b, End(b).inner) == if IsFull(b) then 0 else Len(b)
  {
    Unwrap(b);
  }

  /** A reader in the window that consumes at most what it is offered, and
      then sees at most that many bytes removed, is still in the window. */
  lemma ConsumeThenRemoveInWindow(b: RingBuffer, c: Cursor, k: nat, m: nat)
    requires Valid(b) && c.inner < Capacity(b) && InWindow(b, c)
    requires k <= Available(b, c) && m <= k
    ensures InWindow(b, Add(c, k, Capacity(b)))
    ensures InWindow(Remove(b, m), Add(c, k, Capacity(b)))
  {
    var c' := Add(c, k, Capacity(b));
    OffsetAfterConsume(b, c, k);
    OffsetAfterRemove(b, m, c'.inner);
  }

  /** Consuming `k` offered bytes moves a reader `k` places forward, wrapping
      to the start only when it consumed up to the end of a full buffer. */
  lemma OffsetAfterConsume(b: RingBuffer, c: Cursor, k: nat)
    requires Valid(b) && c.inner < Capacity(b) && InWindow(b, c) && k <= Available(b, c)
    ensures Offset(b, c.inner) + k <= Len(b)
    ensures Offset(b, Add(c, k, Capacity(b)).inner) ==
      if Offset(b, c.inner) + k < Capacity(b) then Offset(b, c.inner) + k else 0
  {
    var cap := Capacity(b);
    var off := Offset(b, c.inner);
    var t := off + k;
    PosOffset(b);
    assert c.inner == Pos(b, off);
    Modular.ModAddLeft(b.cursor.inner + off, k, cap);
    if t < cap {
      assert Add(c, k, cap).inner == Pos(b, t);
    } else {
      Modular.WrapOnce(b.cursor.inner + t, cap);
    }
  }

  /** The sharp edge of a full buffer: a reader that consumes everything it
      was offered lands on `end() == start()` and, as long as nothing is
      removed, is offered the whole buffer again. */
  lemma FullCatchUpIsOfferedAgain(b: RingBuffer, c: Cursor)
    requires Valid(b) && c.inner < Capacity(b) && IsFull(b)
    ensures Add(c, Available(b, c), Capacity(b)) == End(b)
    ensures Unsent(b, Add(c, Available(b, c), Capacity(b))) == Stream(b)
  {
    var cap := Capacity(b);
    var off := Offset(b, c.inner);
    PosOffset(b);
    Unwrap(b);
    assert c.inner == Pos(b, off);
    Modular.ModAddLeft(b.cursor.inner + off, cap - off, cap);
    Modular.WrapOnce(b.cursor.inner + cap, cap);
    SlicesFromEdges(b, c);
  }
}

=== FILE: ring_buffer_examples.dfy ===
/**
  The ring buffer's unit-test scenarios, on a capacity of 8, restated as
  index ranges (the Rust tests compare slice addresses with the start of the
  backing store; here the ranges carry those offsets directly).
*/
module RingBufferExamples {
  import opened RingBuffers

  function Zeros(): seq<u8>
  {
    [0, 0, 0, 0, 0, 0, 0, 0]
  }

  lemma UnusedWhenEmpty()
    ensures UnusedSlices(New(8)) == Slices(Range(0, 8), Range(0, 0))
  {
  }

  lemma UnusedWrapsWhenEmpty()
    ensures UnusedSlices(RingBuffer(Zeros(), Cursor(3), 0)) == Slices(Range(3, 8), Range(0, 3))
  {
  }

  lemma UnusedContiguousWhenPartiallyFilled()
    ensures UnusedSlices(RingBuffer(Zeros(), Cursor(6), 3)) == Slices(Range(1, 6), NoRange)
  {
  }

  lemma UnusedWrapsWhenPartiallyFilled()
    ensures UnusedSlices(RingBuffer(Zeros(), Cursor(2), 5)) == Slices(Range(7, 8), Range(0, 2))
  {
  }

  lemma UnusedWhenFull()
    ensures Total(UnusedSlices(RingBuffer(Zeros(), Cursor(0), 8))) == 0
  {
  }

  lemma SlicesFromWhenEmpty()
    ensures Total(SlicesFrom(New(8), Cursor(7))) == 0
  {
  }

  lemma SlicesFromContiguous()
    ensures var b := RingBuffer([9, 9, 0, 1, 9, 9, 9, 9], Cursor(2), 2);
      SlicesFrom(b, Cursor(3)) == Slices(Range(3, 4), NoRange) && Unsent(b, Cursor(3)) == [1]
  {
  }

  lemma SlicesFromWrapping()
    ensures var b := RingBuffer([3, 4, 9, 9, 9, 0, 1, 2], Cursor(5), 5);
      && SlicesFrom(b, Cursor(7)) == Slices(Range(7, 8), Range(0, 2))
      && Unsent(b, Cursor(7)) == [2, 3, 4]
  {
  }

  /** A full capacity-8 buffer holding 0..7 from index 0, after removing 3,
      starts at 3 and holds five bytes. */
  lemma RemoveFromFull()
    ensures RingBuffers.Remove(RingBuffer([0, 1, 2, 3, 4, 5, 6, 7], Cursor(0), 8), 3)
      == RingBuffer([0, 1, 2, 3, 4, 5, 6, 7], Cursor(3), 5)
  {
    assert Add(Cursor(0), 3, 8) == Cursor(3);
  }

  /** ... and a reader at 5 is then offered `[5, 6, 7]` in one slice. */
  lemma OfferedAfterRemove()
    ensures var b := RingBuffer([0, 1, 2, 3, 4, 5, 6, 7], Cursor(3), 5);
      && SlicesFrom(b, Cursor(5)) == Slices(Range(5, 8), NoRange)
      && Unsent(b, Cursor(5)) == [5, 6, 7]
  {
  }

  /** Continuing: the free space of that buffer is `[0, 3)`, in one slice. */
  lemma UnusedAfterRemove()
    ensures UnusedSlices(RingBuffer([0, 1, 2, 3, 4, 5, 6, 7], Cursor(3), 5)) == Slices(Range(0, 3), NoRange)
  {
    assert End(RingBuffer([0, 1, 2, 3, 4, 5, 6, 7], Cursor(3), 5)) == Cursor(0);
  }

  /** ... so three bytes written into it all go into that one slice ... */
  lemma WriteUsesFirstSlice()
    ensures var b := RingBuffer([0, 1, 2, 3, 4, 5, 6, 7], Cursor(3), 5);
      WriteUnused(b, [8, 9, 10]) == FillRegions(b, [8, 9, 10], [])
  {
    UnusedAfterRemove();
  }

  /** ... which places them at the front of the store ... */
  lemma FillAtFront()
    ensures var b := RingBuffer([0, 1, 2, 3, 4, 5, 6, 7], Cursor(3), 5);
      FillRegions(b, [8, 9, 10], []) == RingBuffer([8, 9, 10, 3, 4, 5, 6, 7], Cursor(3), 5)
  {
    var b := RingBuffer([0, 1, 2, 3, 4, 5, 6, 7], Cursor(3), 5);
    var w: seq<u8> := [8, 9, 10, 3, 4, 5, 6, 7];
    UnusedAfterRemove();
    assert Fill(b.data, 0, [8, 9, 10]) == w;
    assert Fill(w, 0, []) == w;
  }

  /** ... so three more bytes written into it wrap to the front ... */
  lemma WriteWraps()
    ensures WriteUnused(RingBuffer([0, 1, 2, 3, 4, 5, 6, 7], Cursor(3), 5), [8, 9, 10])
      == RingBuffer([8, 9, 10, 3, 4, 5, 6, 7], Cursor(3), 5)
  {
    WriteUsesFirstSlice();
    FillAtFront();
  }

  /** ... and, once committed, fill the buffer. */
  lemma AppendWraps()
    ensures AssumeInit(WriteUnused(RingBuffer([0, 1, 2, 3, 4, 5, 6, 7], Cursor(3), 5), [8, 9, 10]), 3)
      == RingBuffer([8, 9, 10, 3, 4, 5, 6, 7], Cursor(3), 8)
  {
    WriteWraps();
  }

  /** ... and a reader at 6 is offered `[6, 7]` and then the three new bytes. */
  lemma OfferedAfterAppend()
    ensures var b := RingBuffer([8, 9, 10, 3, 4, 5, 6, 7], Cursor(3), 8);
      && SlicesFrom(b, Cursor(6)) == Slices(Range(6, 8), Range(0, 3))
      && Unsent(b, Cursor(6)) == [6, 7, 8, 9, 10]
  {
  }
}

=== FILE: server.dfy ===
/**
  The bookkeeping of the fan-out server: one ring buffer fed by the child's
  standard output, and a table of connections, each reading the buffer through
  its own cursor.

  Every I/O call is replaced by its outcome, supplied as an input: whether the
  listener has a connection ready, what each connection's vectored write
  reported, and what the child's standard output delivered.
*/
module Servers {
  import opened RingBuffers
  import opened Slabs

  /** The capacity of the server's output buffer. */
  const OutputCapacity: nat := 4096

  // ---------------------------------------------------------------------------
  // I/O results
  // ---------------------------------------------------------------------------

  /** An I/O error, distinguished only by whether its kind is a broken pipe. */
  datatype IoError = BrokenPipe | Other(code: nat)

  datatype Result<T> = Ok(value: T) | Err(error: IoError)

  datatype Poll<T> = Ready(value: T) | Pending

  /** Whether the poll made progress (`Ready(Ok(_))`). */
  predicate IsReadyOk<T>(p: Poll<Result<T>>)
  {
    p.Ready? && p.value.Ok?
  }

  /** Whether the poll failed (`Ready(Err(_))`). */
  predicate IsReadyErr<T>(p: Poll<Result<T>>)
  {
    p.Ready? && p.value.Err?
  }

  /** Result of binding the listener or spawning the child. */
  datatype SetupOutcome = Started | SetupFailed(error: IoError)

  /** Result of polling the listener once. */
  datatype AcceptOutcome = Incoming | NoneReady | AcceptFailed(error: IoError)

  /** Result of one `poll_write_vectored` on a connection's sink. */
  datatype WriteOutcome = Written(n: nat) | WouldBlock | WriteFailed(error: IoError)

  /** Result of one `poll_read` on the child's standard output: the bytes it
      put into the region, not ready, or an error. */
  datatype ReadOutcome = Filled(bytes: seq<u8>) | NotReady | ReadFailed(error: IoError)

  // ---------------------------------------------------------------------------
  // State
  // ---------------------------------------------------------------------------

  /** Which sink a connection writes to. */
  datatype Sink = Stdio | Unix

  /** A connection: its sink and the position of its next unsent byte. */
  datatype Connection = Connection(sink: Sink, cursor: Cursor)

  /** The listener and the child process are represented only by the outcomes
      they report. */
  datatype Server = Server(buffer: RingBuffer, connections: Slab<Connection>)

  predicate IsLive(s: Server, id: nat)
  {
    Contains(s.connections, id)
  }

  /** The cursor of a live connection. */
  function CursorOf(s: Server, id: nat): Cursor
    requires IsLive(s, id)
  {
    s.connections.entries[id].value.cursor
  }

  /** The buffer is well formed and every cursor indexes into it. */
  predicate ServerValid(s: Server)
  {
    && Valid(s.buffer)
    && forall id :: 0 <= id < |s.connections.entries| && s.connections.entries[id].Occupied? ==>
         s.connections.entries[id].value.cursor.inner < Capacity(s.buffer)
  }

  /** Every live connection's cursor lies between the buffer's start and its
      end, so that what it has still to send is a suffix of the stream. */
  predicate CursorsInWindow(s: Server)
    requires ServerValid(s)
  {
    forall id: nat :: id < |s.connections.entries| && IsLive(s, id) ==> InWindow(s.buffer, CursorOf(s, id))
  }

  // ---------------------------------------------------------------------------
  // Start-up and accepting
  // ---------------------------------------------------------------------------

  /** `Server::listen`: an empty buffer and the server's own standard output
      as the first connection, positioned at the buffer's end; then binding
      the listener, then spawning the child, each of which may fail. */
  function Listen(bind: SetupOutcome, spawn: SetupOutcome): (r: Result<Server>)
    ensures r.Ok? <==> bind.Started? && spawn.Started?
    ensures bind.SetupFailed? ==> r == Err(bind.error)
    ensures bind.Started? && spawn.SetupFailed? ==> r == Err(spawn.error)
    ensures r.Ok? ==>
      var s := r.value;
      && ServerValid(s) && IsEmpty(s.buffer) && Capacity(s.buffer) == OutputCapacity
      && s.connections.entries == [Occupied(Connection(Stdio, End(s.buffer)))]
  {
    var buffer := New(OutputCapacity);
    var (connections, _) := Insert(Empty(), Connection(Stdio, End(buffer)));
    match bind
    case SetupFailed(e) => Err(e)
    case Started =>
      match spawn
      case SetupFailed(e) => Err(e)
      case Started => Ok(Server(buffer, connections))
  }

  /** `poll_accept`: a ready connection is inserted, positioned at the
      buffer's current end, and its id is reported. */
  function PollAccept(s: Server, outcome: AcceptOutcome): (r: (Server, Poll<Result<nat>>))
    requires ServerValid(s)
    ensures ServerValid(r.0) && r.0.buffer == s.buffer
    ensures IsReadyOk(r.1) <==> outcome.Incoming?
    ensures outcome.AcceptFailed? ==> r.1 == Ready(Err(outcome.error))
    ensures outcome.NoneReady? ==> r == (s, Pending)
    ensures !IsReadyOk(r.1) ==> r.0 == s
    ensures IsReadyOk(r.1) ==>
      var id := r.1.value.value;
      && !IsLive(s, id) && IsLive(r.0, id)
      && r.0.connections.entries[id] == Occupied(Connection(Unix, End(s.buffer)))
      && |r.0.connections.entries| ==
           (if id < |s.connections.entries| then |s.connections.entries| else |s.connections.entries| + 1)
      && forall j :: 0 <= j < |s.connections.entries| && j != id ==>
           r.0.connections.entries[j] == s.connections.entries[j]
  {
    match outcome
    case Incoming =>
      var (connections, id) := Insert(s.connections, Connection(Unix, End(s.buffer)));
      (Server(s.buffer, connections), Ready(Ok(id)))
    case NoneReady => (s, Pending)
    case AcceptFailed(e) => (s, Ready(Err(e)))
  }

  // ---------------------------------------------------------------------------
  // The write step
  // ---------------------------------------------------------------------------

  /** A write error other than a broken pipe: it ends the server. */
  predicate IsFatal(o: WriteOutcome)
  {
    o.WriteFailed? && o.error != BrokenPipe
  }

  /** How many bytes a write outcome says the connection took. */
  function Sent(o: WriteOutcome): nat
  {
    if o.Written? then o.n else 0
  }

  /** What one slot becomes after its connection's write outcome: a free slot
      stays free, a connection leaves exactly on a broken pipe, and one that
      stays keeps its sink and moves its cursor on by what it wrote. */
  function EntryAfter(e: Entry<Connection>, o: WriteOutcome, cap: nat): (r: Entry<Connection>)
    requires cap > 0 && (e.Occupied? ==> e.value.cursor.inner < cap)
    ensures e.Vacant? ==> r.Vacant?
    ensures e.Occupied? ==> (r.Occupied? <==> o != WriteFailed(BrokenPipe))
    ensures r.Occupied? ==> r.value.sink == e.value.sink && r.value.cursor == Add(e.value.cursor, Sent(o), cap)
  {
    match e
    case Vacant => Vacant
    case Occupied(c) =>
      match o
      case Written(n) => Occupied(c.(cursor := Add(c.cursor, n, cap)))
      case WouldBlock => e
      case WriteFailed(err) => if err == BrokenPipe then Vacant else e
  }

  /** The table after a write round without a fatal error: a connection that
      wrote `n` bytes moved its cursor by `n`, one whose pipe broke is gone,
      all others and all ids are untouched. */
  function TableAfter(s: Server, out: nat -> WriteOutcome): Slab<Connection>
    requires ServerValid(s)
  {
    var es := s.connections.entries;
    Slab(seq(|es|, i requires 0 <= i < |es| => EntryAfter(es[i], out(i), Capacity(s.buffer))))
  }

  ghost predicate WouldBlockBelow(s: Server, out: nat -> WriteOutcome, n: nat)
  {
    exists id :: 0 <= id < n && IsLive(s, id) && out(id).WouldBlock?
  }

  ghost predicate FatalBelow(s: Server, out: nat -> WriteOutcome, n: nat)
  {
    exists id :: 0 <= id < n && IsLive(s, id) && IsFatal(out(id))
  }

  ghost predicate AnyWouldBlock(s: Server, out: nat -> WriteOutcome)
  {
    WouldBlockBelow(s, out, |s.connections.entries|)
  }

  ghost predicate AnyFatal(s: Server, out: nat -> WriteOutcome)
  {
    FatalBelow(s, out, |s.connections.entries|)
  }

  /** `m` is the round's minimum over the first `n` slots: 0 if one of those
      connections would block, otherwise the least of the buffer's length and
      every count written. */
  ghost predicate IsMinimumBelow(s: Server, out: nat -> WriteOutcome, n: nat, m: nat)
  {
    && m <= Len(s.buffer)
    && (WouldBlockBelow(s, out, n) ==> m == 0)
    && (!WouldBlockBelow(s, out, n) ==>
         && (forall id :: 0 <= id < n && IsLive(s, id) && out(id).Written? ==> m <= out(id).n)
         && (m == Len(s.buffer) ||
             exists id :: 0 <= id < n && IsLive(s, id) && out(id) == Written(m)))
  }

  ghost predicate IsRoundMinimum(s: Server, out: nat -> WriteOutcome, m: nat)
  {
    IsMinimumBelow(s, out, |s.connections.entries|, m)
  }

  /** `id` is the lowest live connection whose write failed with an error
      other than a broken pipe: the one at which the round stops. */
  ghost predicate FirstFatal(s: Server, out: nat -> WriteOutcome, id: nat)
  {
    && id < |s.connections.entries| && IsLive(s, id) && IsFatal(out(id))
    && !FatalBelow(s, out, id)
  }

  /** `t` is the table with the outcomes of the slots below `n` applied and
      every slot from `n` on untouched. */
  predicate AppliedBelow(s: Server, out: nat -> WriteOutcome, t: Slab<Connection>, n: nat)
    requires ServerValid(s)
  {
    && |t.entries| == |s.connections.entries|
    && (forall j :: 0 <= j < n && j < |t.entries| ==>
          t.entries[j] == EntryAfter(s.connections.entries[j], out(j), Capacity(s.buffer)))
    && (forall j :: n <= j < |t.entries| ==> t.entries[j] == s.connections.entries[j])
  }

  /** How many bytes a write round reclaimed. */
  function Reclaimed(p: Poll<Result<nat>>): nat
  {
    if IsReadyOk(p) then p.value.value else 0
  }

  /** What `poll_write` does in one round, given each connection's outcome:
      - on an empty buffer nothing changes and the round is pending;
      - a fatal error on a live connection fails the round with the error of
        the lowest such connection; the slots below it have had their
        outcomes applied, the rest and the buffer are untouched;
      - otherwise every connection is updated as `TableAfter` says, the
        buffer drops the round's minimum, and the round is ready exactly when
        that minimum is positive. */
  ghost predicate WriteRound(s: Server, out: nat -> WriteOutcome, s': Server, p: Poll<Result<nat>>)
    requires ServerValid(s)
  {
    if IsEmpty(s.buffer) then
      s' == s && p == Pending
    else if AnyFatal(s, out) then
      && IsReadyErr(p)
      && s'.buffer == s.buffer
      && exists id :: FirstFatal(s, out, id) && out(id) == WriteFailed(p.value.error)
                   && AppliedBelow(s, out, s'.connections, id)
    else
      && !IsReadyErr(p)
      && (IsReadyOk(p) ==> p.value.value > 0)
      && IsRoundMinimum(s, out, Reclaimed(p))
      && s'.connections == TableAfter(s, out)
      && s'.buffer == (if Reclaimed(p) > 0 then RingBuffers.Remove(s.buffer, Reclaimed(p)) else s.buffer)
  }

  /** `poll_write`: offer every live connection the slices from its cursor,
      apply its outcome, and reclaim what all of them have written. */
  method PollWrite(s: Server, out: nat -> WriteOutcome) returns (s': Server, p: Poll<Result<nat>>)
    requires ServerValid(s)
    ensures ServerValid(s')
    ensures WriteRound(s, out, s', p)
  {
    if IsEmpty(s.buffer) {
      return s, Pending;
    }
    var cap := Capacity(s.buffer);
    var connections := s.connections;
    var minWritten := Len(s.buffer);
    var id := 0;
    while id < |connections.entries|
      invariant id <= |connections.entries| == |s.connections.entries|
      invariant forall j :: 0 <= j < id ==>
        connections.entries[j] == EntryAfter(s.connections.entries[j], out(j), cap)
      invariant forall j :: id <= j < |connections.entries| ==>
        connections.entries[j] == s.connections.entries[j]
      invariant ServerValid(Server(s.buffer, connections))
      invariant !FatalBelow(s, out, id)
      invariant IsMinimumBelow(s, out, id, minWritten)
    {
      if IsLive(s, id) {
        var o := out(id);
        match o
        case Written(n) =>
          var c := s.connections.entries[id].value;
          connections := Slab(connections.entries[id := Occupied(c.(cursor := Add(c.cursor, n, cap)))]);
          minWritten := Min(n, minWritten);
        case WriteFailed(err) =>
          if err == BrokenPipe {
            connections := Slabs.Remove(connections, id);
          } else {
            assert FirstFatal(s, out, id) && AppliedBelow(s, out, connections, id);
            return Server(s.buffer, connections), Ready(Err(err));
          }
        case WouldBlock =>
          minWritten := 0;
      }
      id := id + 1;
    }
    assert connections == TableAfter(s, out);
    if minWritten > 0 {
      s' := Server(RingBuffers.Remove(s.buffer, minWritten), connections);
      p := Ready(Ok(minWritten));
    } else {
      s' := Server(s.buffer, connections);
      p := Pending;
    }
  }

  // ---------------------------------------------------------------------------
  // The read step
  // ---------------------------------------------------------------------------

  /** The bytes a read outcome delivered, if any. */
  function BytesOf(o: ReadOutcome): seq<u8>
  {
    if o.Filled? then o.bytes else []
  }

  /** A read never delivers more bytes than the region it was given. */
  predicate ReadsFit(b: RingBuffer, first: ReadOutcome, second: ReadOutcome)
    requires Valid(b)
  {
    && |BytesOf(first)| <= Length(UnusedSlices(b).first)
    && |BytesOf(second)| <= Length(UnusedSlices(b).second)
  }

  /** Commit what the reads delivered, if anything: progress exactly when
      some byte arrived, the length grows by the count, and the bytes are
      appended in order when the second region was used only after the first
      was filled. */
  function Commit(s: Server, x: seq<u8>, y: seq<u8>): (r: (Server, Poll<Result<nat>>))
    requires ServerValid(s)
    requires |x| <= Length(UnusedSlices(s.buffer).first) && |y| <= Length(UnusedSlices(s.buffer).second)
    ensures ServerValid(r.0) && r.0.connections == s.connections
    ensures r.1 == Ready(Ok(|x| + |y|)) <==> |x| + |y| > 0
    ensures r.1.Pending? <==> |x| + |y| == 0
    ensures r.1.Pending? ==> r.0 == s
    ensures Len(r.0.buffer) == Len(s.buffer) + |x| + |y| <= Capacity(s.buffer)
    ensures |x| == Length(UnusedSlices(s.buffer).first) || |y| == 0 ==>
      Stream(r.0.buffer) == Stream(s.buffer) + x + y
  {
    var inOrder := |x| == Length(UnusedSlices(s.buffer).first) || |y| == 0;
    assert inOrder ==> Stream(AssumeInit(FillRegions(s.buffer, x, y), |x| + |y|)) == Stream(s.buffer) + x + y by {
      if inOrder {
        FillThenCommit(s.buffer, x, y);
      }
    }
    if |x| + |y| > 0 then
      (s.(buffer := AssumeInit(FillRegions(s.buffer, x, y), |x| + |y|)), Ready(Ok(|x| + |y|)))
    else
      (s, Pending)
  }

  /** `poll_read`: read from the child into the first unused region and then
      into the second, stopping at an empty region or a read that is not
      ready, and commit the total. The second region is read even when the
      first read did not fill the first region. */
  function PollRead(s: Server, first: ReadOutcome, second: ReadOutcome): (r: (Server, Poll<Result<nat>>))
    requires ServerValid(s) && ReadsFit(s.buffer, first, second)
    ensures ServerValid(r.0) && r.0.connections == s.connections
    ensures Capacity(r.0.buffer) == Capacity(s.buffer) && Start(r.0.buffer) == Start(s.buffer)
    ensures Stream(s.buffer) <= Stream(r.0.buffer)
    ensures IsFull(s.buffer) ==> r == (s, Pending)
    ensures first.NotReady? ==> r == (s, Pending)
    ensures r.1.Pending? ==> r.0 == s
    ensures IsReadyErr(r.1) ==> Stream(r.0.buffer) == Stream(s.buffer)
    ensures IsReadyOk(r.1) ==>
      && r.1.value.value > 0
      && Len(r.0.buffer) == Len(s.buffer) + r.1.value.value <= Capacity(s.buffer)
    ensures !IsFull(s.buffer) && first.ReadFailed? ==> r == (s, Ready(Err(first.error)))
    ensures first.Filled? && Length(UnusedSlices(s.buffer).second) > 0 && second.ReadFailed? ==>
      r.1 == Ready(Err(second.error)) && Stream(r.0.buffer) == Stream(s.buffer)
    ensures var n := |BytesOf(first)| + |BytesOf(second)|;
      first.Filled? && (Length(UnusedSlices(s.buffer).second) == 0 || !second.ReadFailed?) ==>
        && (n > 0 <==> r.1 == Ready(Ok(n)))
        && (n == 0 ==> r == (s, Pending))
        && Len(r.0.buffer) == Len(s.buffer) + n
  {
    var u := UnusedSlices(s.buffer);
    FillKeepsStream(s.buffer, BytesOf(first), []);
    FillKeepsStream(s.buffer, BytesOf(first), BytesOf(second));
    if Length(u.first) == 0 then
      (s, Pending)
    else
      match first
      case ReadFailed(e) => (s, Ready(Err(e)))
      case NotReady => (s, Pending)
      case Filled(x) =>
        if Length(u.second) == 0 then
          Commit(s, x, [])
        else
          match second
          case ReadFailed(e) => (s.(buffer := FillRegions(s.buffer, x, [])), Ready(Err(e)))
          case NotReady => Commit(s, x, [])
          case Filled(y) => Commit(s, x, y)
  }
}

=== FILE: server_theory.dfy ===
/**
  Properties of the server's rounds that relate several calls or hold across
  every connection: no unsent byte is discarded, broken pipes do not hold the
  buffer back, and what the read step appends.
*/
module ServerTheory {
  import Modular
  import opened RingBuffers
  import opened Slabs
  import opened Servers

  /** A sink never reports more bytes written than it was offered. */
  predicate WriteFits(s: Server, out: nat -> WriteOutcome, id: nat)
    requires ServerValid(s) && IsLive(s, id)
  {
    out(id).Written? ==> out(id).n <= Available(s.buffer, CursorOf(s, id))
  }

  /** After a round without a fatal error the buffer has dropped exactly what
      the round reclaimed. */
  lemma RoundBuffer(s: Server, out: nat -> WriteOutcome, s': Server, p: Poll<Result<nat>>)
    requires ServerValid(s) && WriteRound(s, out, s', p)
    requires !IsEmpty(s.buffer) && !AnyFatal(s, out)
    ensures s'.buffer == RingBuffers.Remove(s.buffer, Reclaimed(p))
  {
    if Reclaimed(p) == 0 {
      var b := s.buffer;
      Modular.WrapOnce(b.cursor.inner, |b.data|);
      assert Add(b.cursor, 0, |b.data|) == b.cursor;
      assert RingBuffers.Remove(b, 0) == b;
    }
  }

  /** After a round without a fatal error each slot is what its outcome made
      of it. */
  lemma RoundEntry(s: Server, out: nat -> WriteOutcome, s': Server, p: Poll<Result<nat>>, id: nat)
    requires ServerValid(s) && WriteRound(s, out, s', p)
    requires !IsEmpty(s.buffer) && !AnyFatal(s, out) && id < |s.connections.entries|
    ensures id < |s'.connections.entries|
    ensures s'.connections.entries[id] == EntryAfter(s.connections.entries[id], out(id), Capacity(s.buffer))
  {
    assert s'.connections == TableAfter(s, out);
  }

  /** A round without a fatal error reclaims no more than any connection
      that did not fail wrote. */
  lemma RoundBound(s: Server, out: nat -> WriteOutcome, s': Server, p: Poll<Result<nat>>, id: nat)
    requires ServerValid(s) && WriteRound(s, out, s', p)
    requires !IsEmpty(s.buffer) && !AnyFatal(s, out) && IsLive(s, id)
    ensures !IsFatal(out(id))
    ensures !out(id).WriteFailed? ==> Reclaimed(p) <= Sent(out(id))
  {
    if out(id).WouldBlock? {
      assert WouldBlockBelow(s, out, |s.connections.entries|);
    }
  }

  /** Every connection of a round survives it with its cursor in the window
      and exactly its unsent bytes, minus the ones it wrote, still in the
      buffer -- unless the buffer was full, the connection wrote all of it,
      and nothing could be reclaimed. */
  lemma WriteRoundKeepsUnsent(s: Server, out: nat -> WriteOutcome, s': Server, p: Poll<Result<nat>>, id: nat)
    requires ServerValid(s) && WriteRound(s, out, s', p)
    requires !IsEmpty(s.buffer) && !AnyFatal(s, out)
    requires IsLive(s, id) && InWindow(s.buffer, CursorOf(s, id)) && WriteFits(s, out, id)
    requires !(IsFull(s.buffer) && Reclaimed(p) == 0 && out(id) == Written(Available(s.buffer, CursorOf(s, id))))
    ensures IsLive(s', id) <==> out(id) != WriteFailed(BrokenPipe)
    ensures IsLive(s', id) ==>
      && CursorOf(s', id).inner < Capacity(s'.buffer)
      && InWindow(s'.buffer, CursorOf(s', id))
      && Unsent(s'.buffer, CursorOf(s', id)) == Unsent(s.buffer, CursorOf(s, id))[Sent(out(id))..]
  {
    var b := s.buffer;
    var c := CursorOf(s, id);
    RoundBuffer(s, out, s', p);
    RoundEntry(s, out, s', p, id);
    RoundBound(s, out, s', p, id);
    if IsLive(s', id) {
      var k := Sent(out(id));
      ConsumeThenRemove(b, c, k, Reclaimed(p));
    }
  }

  /** The sharp edge of a zero-byte write: one live connection that reports
      writing nothing stalls the whole round, which reclaims nothing and is
      pending, although every other connection may have moved on. */
  lemma ZeroWriteStallsRound(s: Server, out: nat -> WriteOutcome, s': Server, p: Poll<Result<nat>>, id: nat)
    requires ServerValid(s) && WriteRound(s, out, s', p)
    requires !IsEmpty(s.buffer) && !AnyFatal(s, out)
    requires IsLive(s, id) && out(id) == Written(0)
    ensures p == Pending && s'.buffer == s.buffer
  {
    RoundBound(s, out, s', p, id);
  }

  /** A round that meets a fatal write error reports the error of the lowest
      live connection that failed that way, reclaims nothing, and has applied
      the outcomes of exactly the slots below it. */
  lemma FatalRoundReportsFirst(s: Server, out: nat -> WriteOutcome, s': Server, p: Poll<Result<nat>>, id: nat)
    requires ServerValid(s) && WriteRound(s, out, s', p) && !IsEmpty(s.buffer)
    requires FirstFatal(s, out, id)
    ensures p == Ready(Err(out(id).error))
    ensures s'.buffer == s.buffer && AppliedBelow(s, out, s'.connections, id)
  {
    assert AnyFatal(s, out);
    var id': nat :| FirstFatal(s, out, id') && out(id') == WriteFailed(p.value.error)
             && AppliedBelow(s, out, s'.connections, id');
    assert id' == id;
  }

  /** When every connection's pipe broke in a round, none is left and the
      whole buffer is reclaimed: no departed reader holds data back. */
  lemma AllBrokenReclaimsAll(s: Server, out: nat -> WriteOutcome, s': Server, p: Poll<Result<nat>>)
    requires ServerValid(s) && WriteRound(s, out, s', p) && !IsEmpty(s.buffer)
    requires forall id :: 0 <= id < |s.connections.entries| && IsLive(s, id) ==> out(id) == WriteFailed(BrokenPipe)
    ensures p == Ready(Ok(Len(s.buffer)))
    ensures IsEmpty(s'.buffer)
    ensures forall id: nat :: !IsLive(s', id)
  {
    assert !AnyFatal(s, out);
    assert !AnyWouldBlock(s, out);
    forall id | 0 <= id < |s.connections.entries| && IsLive(s, id)
      ensures !out(id).Written?
    {
    }
    assert Reclaimed(p) == Len(s.buffer);
    forall id: nat
      ensures !IsLive(s', id)
    {
      if 0 <= id < |s'.connections.entries| {
        assert s'.connections.entries[id] == EntryAfter(s.connections.entries[id], out(id), Capacity(s.buffer));
      }
    }
  }

  /** What a round reclaims never exceeds what any surviving connection
      wrote, and is nothing when one of them would block. */
  lemma ReclaimedBoundedBySurvivors(s: Server, out: nat -> WriteOutcome, s': Server, p: Poll<Result<nat>>)
    requires ServerValid(s) && WriteRound(s, out, s', p) && !IsEmpty(s.buffer) && !AnyFatal(s, out)
    ensures forall id: nat :: IsLive(s', id) ==> Reclaimed(p) <= Sent(out(id))
    ensures Len(s'.buffer) == Len(s.buffer) - Reclaimed(p)
  {
    forall id: nat | IsLive(s', id)
      ensures Reclaimed(p) <= Sent(out(id))
    {
      RoundEntry(s, out, s', p, id);
      RoundBound(s, out, s', p, id);
    }
    RoundBuffer(s, out, s', p);
  }

  /** A round that makes progress shortens the buffer by the count it
      reports. */
  lemma ProgressShrinksBuffer(s: Server, out: nat -> WriteOutcome, s': Server, p: Poll<Result<nat>>)
    requires ServerValid(s) && WriteRound(s, out, s', p) && IsReadyOk(p)
    ensures Len(s'.buffer) == Len(s.buffer) - p.value.value < Len(s.buffer)
  {
    ReclaimedBoundedBySurvivors(s, out, s', p);
  }

  /** When the second region is used only after the first was filled, and no
      read into a used region failed, the read step appends exactly the bytes
      read, in order, and reports progress exactly when some arrived. */
  lemma PollReadAppends(s: Server, first: ReadOutcome, second: ReadOutcome)
    requires ServerValid(s) && ReadsFit(s.buffer, first, second)
    requires first.Filled? && |BytesOf(second)| > 0 ==>
      |first.bytes| == Length(UnusedSlices(s.buffer).first)
    ensures var r := PollRead(s, first, second);
      var n := |BytesOf(first)| + |BytesOf(second)|;
      first.Filled? && (Length(UnusedSlices(s.buffer).second) == 0 || !second.ReadFailed?) ==>
        && Stream(r.0.buffer) == Stream(s.buffer) + BytesOf(first) + BytesOf(second)
        && (n > 0 <==> r.1 == Ready(Ok(n)))
  {
    var u := UnusedSlices(s.buffer);
    if first.Filled? && (Length(u.second) == 0 || !second.ReadFailed?) {
      if Length(u.second) > 0 && second.Filled? {
        FillThenCommit(s.buffer, first.bytes, second.bytes);
      } else {
        FillThenCommit(s.buffer, first.bytes, []);
        assert BytesOf(second) == [];
      }
    }
  }

  /** The sharp edge of a partial first read: with an empty buffer whose
      start is 2 in a capacity of 4, a read of one byte into the first region
      followed by a read of one byte into the second commits two bytes, the
      second of which is a byte that was never written. */
  lemma PartialFillCommitsUnwrittenByte()
    ensures var s := Server(RingBuffer([0, 0, 0, 0], Cursor(2), 0), Empty());
      var r := PollRead(s, Filled([7]), Filled([9]));
      && r.1 == Ready(Ok(2))
      && Stream(r.0.buffer) == [7, 0]
  {
    var s := Server(RingBuffer([0, 0, 0, 0], Cursor(2), 0), Empty());
    var u := UnusedSlices(s.buffer);
    assert u == Slices(Range(2, 4), Range(0, 2));
    var r := PollRead(s, Filled([7]), Filled([9]));
    assert r.0.buffer.data == [9, 0, 7, 0];
    assert Pos(r.0.buffer, 0) == 2 && Pos(r.0.buffer, 1) == 3;
  }

  // ---------------------------------------------------------------------------
  // Cursors stay in the window
  // ---------------------------------------------------------------------------

  /** A fresh server's only cursor sits at the end of the empty buffer. */
  lemma ListenInWindow(bind: SetupOutcome, spawn: SetupOutcome)
    requires Listen(bind, spawn).Ok?
    ensures CursorsInWindow(Listen(bind, spawn).value)
  {
    var s := Listen(bind, spawn).value;
    EndInWindow(s.buffer);
  }

  /** Accepting keeps every cursor in the window: the buffer is untouched and
      the new cursor sits at its end. */
  lemma PollAcceptKeepsWindow(s: Server, outcome: AcceptOutcome)
    requires ServerValid(s) && CursorsInWindow(s)
    ensures CursorsInWindow(PollAccept(s, outcome).0)
  {
    var r := PollAccept(s, outcome);
    if IsReadyOk(r.1) {
      EndInWindow(s.buffer);
      forall id: nat | IsLive(r.0, id)
        ensures InWindow(r.0.buffer, CursorOf(r.0, id))
      {
        if id != r.1.value.value {
          assert IsLive(s, id);
        }
      }
    }
  }

  /** Reading keeps every cursor in the window: the start does not move and
      the stream only grows. */
  lemma PollReadKeepsWindow(s: Server, first: ReadOutcome, second: ReadOutcome)
    requires ServerValid(s) && ReadsFit(s.buffer, first, second) && CursorsInWindow(s)
    ensures CursorsInWindow(PollRead(s, first, second).0)
  {
    var r := PollRead(s, first, second).0;
    assert Len(s.buffer) <= Len(r.buffer) by {
      assert |Stream(s.buffer)| <= |Stream(r.buffer)|;
    }
    forall id: nat | IsLive(r, id)
      ensures InWindow(r.buffer, CursorOf(r, id))
    {
      assert IsLive(s, id) && CursorOf(r, id) == CursorOf(s, id);
      assert Offset(r.buffer, CursorOf(r, id).inner) == Offset(s.buffer, CursorOf(s, id).inner);
    }
  }

  /** One connection of a write round that wrote no more than it was offered
      ends the round in the window. */
  lemma WriteRoundKeepsWindowAt(s: Server, out: nat -> WriteOutcome, s': Server, p: Poll<Result<nat>>, id: nat)
    requires ServerValid(s) && WriteRound(s, out, s', p) && CursorsInWindow(s)
    requires forall j: nat :: IsLive(s, j) ==> WriteFits(s, out, j)
    requires ServerValid(s') && IsLive(s', id)
    ensures InWindow(s'.buffer, CursorOf(s', id))
  {
    var b, cap := s.buffer, Capacity(s.buffer);
    if IsEmpty(b) {
    } else if AnyFatal(s, out) {
      var f: nat :| FirstFatal(s, out, f) && AppliedBelow(s, out, s'.connections, f);
      if id < f {
        assert s'.connections.entries[id] == EntryAfter(s.connections.entries[id], out(id), cap);
        assert IsLive(s, id) && WriteFits(s, out, id);
        ConsumeThenRemoveInWindow(b, CursorOf(s, id), Sent(out(id)), 0);
      } else {
        assert s'.connections.entries[id] == s.connections.entries[id];
        assert IsLive(s, id);
      }
    } else {
      RoundEntry(s, out, s', p, id);
      RoundBuffer(s, out, s', p);
      assert IsLive(s, id) && WriteFits(s, out, id);
      RoundBound(s, out, s', p, id);
      ConsumeThenRemoveInWindow(b, CursorOf(s, id), Sent(out(id)), Reclaimed(p));
    }
  }

  /** A write round in which no sink claims more than it was offered keeps
      every cursor in the window. */
  lemma PollWriteKeepsWindow(s: Server, out: nat -> WriteOutcome, s': Server, p: Poll<Result<nat>>)
    requires ServerValid(s) && WriteRound(s, out, s', p) && CursorsInWindow(s)
    requires forall id: nat :: IsLive(s, id) ==> WriteFits(s, out, id)
    requires ServerValid(s')
    ensures CursorsInWindow(s')
  {
    forall id: nat | IsLive(s', id)
      ensures InWindow(s'.buffer, CursorOf(s', id))
    {
      WriteRoundKeepsWindowAt(s, out, s', p, id);
    }
  }
}

=== FILE: slab.dfy ===
/**
  The connection table: a stable-id sparse collection (the `Slab` the server
  keeps its connections in). Only what the server uses is modelled: insert,
  remove, lookup, and the fact that removing one id disturbs no other.
*/
module Slabs {

  /** One slot: free, or holding a value. */
  datatype Entry<T> = Vacant | Occupied(value: T)

  /** Slot `id` holds the value stored under key `id`. */
  datatype Slab<T> = Slab(entries: seq<Entry<T>>)

  /** `Slab::with_capacity(n)`: a table with no entries. */
  function Empty<T>(): (r: Slab<T>)
    ensures forall key :: !Contains(r, key)
  {
    Slab([])
  }

  predicate Contains<T>(s: Slab<T>, key: nat)
  {
    key < |s.entries| && s.entries[key].Occupied?
  }

  /** The lowest vacant slot at or after `from`, or the length when there is none. */
  function FirstVacant<T>(entries: seq<Entry<T>>, from: nat): (k: nat)
    requires from <= |entries|
    ensures from <= k <= |entries|
    ensures k < |entries| ==> entries[k].Vacant?
    ensures forall j :: from <= j < k ==> entries[j].Occupied?
    decreases |entries| - from
  {
    if from == |entries| || entries[from].Vacant? then from else FirstVacant(entries, from + 1)
  }

  /** `insert(value)`: store `value` under a key that was free (the lowest one)
      and return that key; every other slot is left as it was. */
  function Insert<T>(s: Slab<T>, value: T): (r: (Slab<T>, nat))
    ensures !Contains(s, r.1) && Contains(r.0, r.1)
    ensures r.0.entries[r.1] == Occupied(value)
    ensures forall j :: 0 <= j < r.1 ==> Contains(s, j)
    ensures |r.0.entries| == if r.1 < |s.entries| then |s.entries| else |s.entries| + 1
    ensures forall j :: 0 <= j < |s.entries| && j != r.1 ==> r.0.entries[j] == s.entries[j]
  {
    var key := FirstVacant(s.entries, 0);
    if key < |s.entries| then
      (Slab(s.entries[key := Occupied(value)]), key)
    else
      (Slab(s.entries + [Occupied(value)]), key)
  }

  /** `remove(key)`: free the slot of a stored key; every other slot is left
      as it was and no key changes. */
  function Remove<T>(s: Slab<T>, key: nat): (r: Slab<T>)
    requires Contains(s, key)
    ensures !Contains(r, key) && |r.entries| == |s.entries|
    ensures forall j :: 0 <= j < |s.entries| && j != key ==> r.entries[j] == s.entries[j]
  {
    Slab(s.entries[key := Vacant])
  }
}
